=== FILE: README.md ===
# PdfViewer state machine in Dafny

This project models the `PdfViewer` React component
(`src/components/PdfViewer/PdfViewer.tsx`). The component shows one page of a PDF at a
time. It draws three aligned layers: a raster canvas, a text layer and an annotation
layer. The model covers the logic that drives the component:

- clamped page navigation (`switchPageHandler`);
- the single-flight page render (`pageRendering`) and the fixed order of its stages;
- the fit-scale rule (`getScaleForCurrentWidth`);
- the bounded fault counter (`componentDidCatch`, `MAX_RELOAD_COUNT_ON_ERROR = 2`);
- document loading on mount, on a change of `src` and after an upload;
- which screen `render` shows.

The viewer is an immutable `State` record. It holds the component's `state` object, the
`isPageRendering` instance field and the props. It also holds the asynchronous work in
flight: pending document loads, and at most one page-rendering coroutine past its guard.
`Viewer.Step` applies one event; `Viewer.Run` applies a sequence of events. An event is one
atomic run of JavaScript between suspension points (with one exception: a load settling
also runs the `.then` render queued behind it, see "## Left out"):

- a lifecycle hook;
- an upload;
- a runtime fault;
- a page-switch click;
- a throttled resize;
- a pending load settling;
- the in-flight render resuming from one of its awaits.

`pageRendering` is a coroutine. `Render.BeginRender` is its synchronous prefix, up to the
first `await`. `Render.ResumeRender` is one segment between awaits. There are five awaits:
`getPage`, `getViewport`, the raster task, `getTextContent`, and `await new PDFLinkService`.
The document engine (pdf.js) and the DOM are the environment. Each resume carries the
`Reply` the awaited call settled with, or `Failed`. The viewport that
`getScaleForCurrentWidth` probes and the container's size arrive with the `getPage` reply,
because the code reads them in the segment that follows that await. A `trace` records, in
order, every engine call and every surface write that a page render makes after its guard,
with `ResolveScale` recording the scale it chose. The probe `getViewport` call inside
`getScaleForCurrentWidth` (line 158) is not recorded; its result is an input of
`ResolveScale`. `Render.RenderActions` is the reference order of one whole render.

Events over-approximate the component. Any event may arrive in any state. This
includes a `Resize` before `Mount`, although the listener is registered only at line 56.
It includes a `SwitchPage` while the navigation buttons are hidden (line 260) and an
`Upload` outside sandbox mode, although the upload panel is shown only in sandbox mode
(line 239). The lemmas over all event sequences therefore also cover every run the
component can really produce, except runs in which two loads' continuations interleave
as described under "## Left out".

Modules: `Optional`, `Engine` (opaque engine values), `Scale`, `ViewerState`, `Render`,
`Navigation`, `Lifecycle`, `View` (the branches of `render`), `Viewer` (events, the
invariant, lemmas over event sequences).

## Behaviour worth knowing

- A page switch at a boundary is not a no-op. `switchPageHandler` keeps the page number
  but still calls `pageRendering`, which blocks navigation and renders the same page again
  (`Viewer.BoundarySwitchStillRenders`).
- A new source does not start a fresh fault counter. Neither a new `src` nor a successful
  load resets it (`Viewer.CounterOnlyMovesOnFault`, `Viewer.ExhaustedCounterSurvivesSourceChange`).
- `componentDidUpdate` receives the previous props but names them `nextProps`. It loads
  `nextProps.link`, which is not a declared prop. The model records the previous props'
  `link` as the source of that load. The loaded document is whatever the environment
  returns.
- If `pdf` is null, `pageRendering` returns after setting both busy flags. If any awaited
  stage fails, it also leaves both flags set. After that nothing clears them, so every
  later render and page switch does nothing (`Viewer.StuckIsPermanent`). In particular, a
  resize before the first document arrives leaves the viewer unable to draw
  (`Viewer.ResizeBeforeLoadNeverDraws`).
- A rejected render from the mount or `src`-change chain reaches that chain's `.catch`. It
  sets `pdfLoadingError`. Upload, switch and resize renders have no handler.
- `afterUpload` and a load that lands late do not reset the page number. The current page
  can therefore lie beyond the page count. The next switch then clamps to the nearest
  valid page (`Navigation.NextPage`).

## Model

| member | source | states |
|---|---|---|
| Scale.FitFor | src/components/PdfViewer/PdfViewer.tsx:161-169 | the scale is kept exactly when the container's client width equals the viewport width at the current scale; otherwise it fits by height exactly when fullscreen is on and width/height < 1.5, and by width in every other case |
| Scale.ScaleForCurrentWidth | src/components/PdfViewer/PdfViewer.tsx:154-173 | at the fixed point the old scale is returned; a height fit makes the page's height at the new scale equal the container's client height, a width fit makes its width equal the client width |
| Scale.WidthFitReachesFixedPoint | src/components/PdfViewer/PdfViewer.tsx:158-168 | if page geometry is linear in the scale, the evaluation after a width fit hits the fixed point and returns the same scale |
| Scale.HeightFitIsStable | src/components/PdfViewer/PdfViewer.tsx:158-171 | if page geometry is linear in the scale, re-evaluating after a fullscreen height fit returns the same scale (no drift) |
| Render.RenderActions | src/components/PdfViewer/PdfViewer.tsx:106-148 | a full render performs getPage, scale, viewport, canvas sizing, raster, text fetch, overlay clear, text layer, link service, annotation layer, in that order; every drawing step uses the one viewport; the viewport, raster, text fetch and annotation layer all use the one fetched page; the text layer draws the fetched text; the resolved scale is the one the viewport is requested at; the raster goes to the canvas; text and annotations go to the same container |
| Render.BeginRender | src/components/PdfViewer/PdfViewer.tsx:98-106 | a call during a render changes nothing; otherwise both busy flags are set before the first await; without a document they stay set and no render is in flight; with one, the page read on entry is requested |
| Render.ResumeRender | src/components/PdfViewer/PdfViewer.tsx:106-152 | each matching reply moves the render to the next await and appends that segment's calls. The page reply resolves the scale to the fit rule's result and asks for the viewport at it. The viewport reply sizes the canvas and rasters the page. The raster reply requests the text. The text reply clears the overlay, draws the text layer and creates the link service. The last reply draws the annotation layer and clears both flags. While the render is still suspended, both flags keep their values. A failed stage ends the render with both flags still set, and it raises the load error only for a caught chain. A reply that is not a failure never touches the load error. Only the getPage segment changes the scale. The trace only grows |
| Navigation.NextPage | src/components/PdfViewer/PdfViewer.tsx:180-182 | with at least one page the result lies in [1, pagesCount] and is the valid page nearest the step: the step itself when in range, 1 below, pagesCount above, whatever the current page; with no pages it is 0; from a valid page the result equals the current page exactly at the boundary in the requested direction |
| Navigation.SwitchPage | src/components/PdfViewer/PdfViewer.tsx:175-188 | a blocked switch changes nothing; otherwise the page becomes the clamped step and, when no render is running, both flags are set even if the page did not change. With a document, a render of that page starts and its `getPage` call is recorded. Without one, no render starts, the trace is unchanged and the viewer is left stuck. No other field changes |
| Lifecycle.Mount | src/components/PdfViewer/PdfViewer.tsx:50-53 | mounting queues a caught load of `props.src` and changes nothing else |
| Lifecycle.Update | src/components/PdfViewer/PdfViewer.tsx:63-78 | a changed `src` resets exactly the error flags, document, uploaded content, page 1 and page count 0, and queues a load of the previous props' `link`; scale, loaded flag, fault counter and render state are kept |
| Lifecycle.Upload | src/components/PdfViewer/PdfViewer.tsx:200-204 | an upload stores the file, clears the load error and queues an uncaught load of the file |
| Lifecycle.SettleLoad | src/components/PdfViewer/PdfViewer.tsx:92-96 | a successful load stores the document, its page count and the loaded flag, keeps the page number and, unless a render is running, starts rendering it and records its `getPage` request after the earlier trace. While a render is running, nothing but the load list and those three fields changes; a failed load raises the load error only for mount and source-change loads; the fault counter is untouched |
| Lifecycle.CatchFault | src/components/PdfViewer/PdfViewer.tsx:80-90 | below 2 a fault increments the counter and leaves the error flag; at 2 it sets the fatal error and keeps the counter; the bound 2 is never exceeded |
| View.RenderScreen | src/components/PdfViewer/PdfViewer.tsx:206-283 | the fatal message appears exactly when `isShowError` holds; the load-failure message exactly when there is no fatal error and a load error outside sandbox mode; the main view in every other case, with the document exactly when loaded, the loading note exactly when not loaded and outside sandbox mode, the upload panel exactly in sandbox mode before a file is chosen, and navigation buttons exactly when there is more than one page |
| Viewer.Step | src/components/PdfViewer/PdfViewer.tsx:55-56 | a resize is one `pageRendering` call: a no-op during a render; otherwise it sets both flags, keeps the page, and with a document starts a render of the current page and records its `getPage` request. A navigation click (lines 262-264) is one `switchPageHandler` call: a no-op while blocked; otherwise it moves to the clamped page; when no render is running it sets both flags, and with a document it starts a render of the new page and records its `getPage` request; no event but a fault moves the fault counter; a render that starts reports failure as a load error exactly when it follows a mount or source-change load |
| Viewer.Initial | src/components/PdfViewer/PdfViewer.tsx:29-42 | the initial state has no document and no uploaded file, page 1 of 0, scale 1, counter 0, not loaded, both error flags clear, idle, the given props, and satisfies the invariant |
| Viewer.StepPreservesInv | src/components/PdfViewer/PdfViewer.tsx:98-152 | every event keeps the invariant: navigation block equals the render flag, counter at most 2, an in-flight render's emitted prefix ends the trace and its resolved scale is the stored one |
| Viewer.RunPreservesInv | src/components/PdfViewer/PdfViewer.tsx:80-152 | every event sequence from a state satisfying the invariant keeps it; in particular the counter never exceeds 2 |
| Viewer.MidRenderRequestsAreDropped | src/components/PdfViewer/PdfViewer.tsx:98-101 | while a render is running, a page switch or a resize leaves the state exactly unchanged (dropped, not deferred) |
| Viewer.RenderCompletesInOrder | src/components/PdfViewer/PdfViewer.tsx:106-151 | the busy flags go down only when the render resumes successfully from its last await; the trace then ends with the complete ordered render, and the stored scale is the scale it used |
| Viewer.RenderCompletesInAnyRun | src/components/PdfViewer/PdfViewer.tsx:98-152 | under any interleaving of events, every completed render leaves the full ordered render at the end of the trace |
| Viewer.UninterruptedRender | src/components/PdfViewer/PdfViewer.tsx:98-152 | a resize on an idle viewer with a document, followed by successful engine replies, draws the current page completely with the fit rule's scale and frees navigation |
| Viewer.OtherEventsLeaveRenderAlone | src/components/PdfViewer/PdfViewer.tsx:98-152 | while a render is suspended, no sequence of other events changes the coroutine, the trace or the scale |
| Viewer.StuckIsPermanent | src/components/PdfViewer/PdfViewer.tsx:99-105 | once the render flag is set with no render in flight, it stays so for every later event; navigation stays blocked and nothing more is drawn |
| Viewer.StuckIgnoresNavigation | src/components/PdfViewer/PdfViewer.tsx:175-178 | while stuck, any sequence of page switches and resizes leaves the state exactly unchanged |
| Viewer.RenderWithoutDocumentSticks | src/components/PdfViewer/PdfViewer.tsx:100-105 | a resize or an unblocked switch with no document sets the flags and leaves the viewer stuck |
| Viewer.ResizeBeforeLoadNeverDraws | src/components/PdfViewer/PdfViewer.tsx:50-57 | mount, then a resize, then the document loading: the document is loaded and counted, but no later events ever draw anything |
| Viewer.FirstLoadRendersPageOne | src/components/PdfViewer/PdfViewer.tsx:50-53 | mounting and loading an n-page document gives page 1 of n, shows the document with navigation buttons exactly when n > 1, and starts a caught render of page 1 |
| Viewer.FailedLoadMessages | src/components/PdfViewer/PdfViewer.tsx:228-234 | a failed load on mount shows the load-failure message outside sandbox mode; a failed upload raises no load error |
| Viewer.BoundarySwitchStillRenders | src/components/PdfViewer/PdfViewer.tsx:178-187 | with 5 pages, previous from page 1 or next from page 5 keeps the page and still blocks navigation and renders that page |
| Viewer.ThirdFaultIsFatal | src/components/PdfViewer/PdfViewer.tsx:80-90 | from counter 0, two faults increment it to 2 without an error; the third shows the fatal message |
| Viewer.CounterOnlyMovesOnFault | src/components/PdfViewer/PdfViewer.tsx:63-96 | no event other than a fault changes the fault counter, including source changes and loads |
| Viewer.ExhaustedCounterSurvivesSourceChange | src/components/PdfViewer/PdfViewer.tsx:63-90 | with the counter exhausted, a new `src` hides the fatal message, but the next fault shows it again |

## Left out

- pdf.js internals: `getDocument`, `getPage`, `getViewport`, `render`, `getTextContent`, `renderTextLayer`, `PDFLinkService` and `AnnotationLayerBuilder` are opaque. The environment chooses what each awaited call settles with. The global worker setting (line 19) has no state effect.
- The scale rule is modelled over `real`. Floating-point rounding is not modelled. Viewports are assumed to have positive width and height, because a zero-size viewport makes the JavaScript division yield Infinity or NaN. The stability lemmas assume geometry linear in the scale; the engine is not assumed to have it.
- Render.ResumeRender: a failure is modelled at the awaits only. A synchronous throw halfway through a segment (for example a missing canvas ref) would leave that segment's earlier writes done; the model treats it as a failure before the segment.
- Render.ResumeRender: a reply of the wrong kind for the current await cannot come from the engine. It is modelled as no change.
- The un-awaited work started by `renderTextLayer` and `annotation.render` is recorded as one surface write each.
- DOM, canvas and JSX markup, CSS and the displayed texts are not modelled. Only which surface each stage writes to is kept.
- `lodash/throttle` timing and the resize listener's registration and removal (lines 55-61) are left out. A `Resize` event is one throttled call of `pageRendering`.
- `toggleFullScreenHandler` (lines 190-198) calls the fullscreen library and has no viewer state. `screenfull` and `isMobile` are boolean inputs.
- The `Upload` component is not part of this model. Its output is an uploaded string.
- React scheduling: `setState` is applied at once and its callback runs right after. Batching and error-boundary re-mounting are not modelled.
- Unhandled rejections from `afterUpload` and from the switch and resize renders have no state effect.
- Lifecycle.SettleLoad: a load's `setState` (line 95) and its `.then(() => this.pageRendering())` callback (lines 52, 75, 203) are fused into one event. This assumes that no other load's continuation runs in the microtask between them. If two loads resolve back to back, the source stores the second document and then renders it from the first callback, because `pageRendering` reads `this.state.pdf` (line 103). The model instead renders, in each event, the document that load fetched. Such runs are not covered.
- The click handlers' `!switchPageBlocked` test (lines 262, 264) is the same test `switchPageHandler` makes first, so it is modelled by `Navigation.SwitchPage` alone.

=== FILE: engine.dfy ===
/**
  Opaque values handed out by the document engine (pdf.js) and by the DOM.
  The viewer never looks inside them except for the page count of a document
  and the pixel size of a viewport; everything else is an identity.
 */
module Engine {

  /** An opened document (`pdf` in the component); only `numPages` is observed. */
  datatype Doc = Doc(id: nat, numPages: nat)

  /** A page object returned by `getPage`. */
  datatype Page = Page(id: nat)

  /** The result of `getTextContent`. */
  datatype TextContent = TextContent(id: nat)

  datatype Dims = Dims(width: real, height: real)

  /** A page's pixel size at some scale, as `getViewport` reports it. */
  type Viewport = d: Dims | d.width > 0.0 && d.height > 0.0 witness Dims(1.0, 1.0)

  /** What the component reads from the wrapping element and from the fullscreen library. */
  datatype Container = Container(clientWidth: real, clientHeight: real, fullscreen: bool)

  /**
    How an awaited engine call settles. `PageReady` also carries what the
    synchronous code right after that await reads: the viewport the page
    reports at the current scale, and the container.
   */
  datatype Reply =
    | PageReady(page: Page, probe: Viewport, container: Container)
    | ViewportReady(viewport: Viewport)
    | TextReady(text: TextContent)
    | Settled
    | Failed

}

=== FILE: lifecycle.dfy ===
/**
  Document loading and the React lifecycle hooks: `componentDidMount`,
  `componentDidUpdate`, `afterUpload`, `fetchPdf` settling, and the
  fault counter of `componentDidCatch`.
 */
module Lifecycle {
  import opened Optional
  import opened Engine
  import opened ViewerState
  import opened Render

  /** `componentDidMount`: starts loading `props.src`; failures are caught. */
  function Mount(s: State): (s': State)
    ensures s'.loads == s.loads + [LoadTask(FromMount, s.props.src)]
    ensures s'.(loads := s.loads) == s
  {
    s.(loads := s.loads + [LoadTask(FromMount, s.props.src)])
  }

  /**
    `componentDidUpdate` after the props became `props`. When the source
    changed it resets the document fields and loads the PREVIOUS props'
    `link`. Scale, loaded flag, fault counter and render flags survive.
   */
  function Update(s: State, props: Props): (s': State)
    ensures s'.props == props
    ensures props.src == s.props.src ==> s' == s.(props := props)
    ensures props.src != s.props.src ==>
      && !s'.isShowError && !s'.pdfLoadingError && s'.pdf.None? && s'.testFileContent.None?
      && s'.currentPageNumber == 1 && s'.pagesCount == 0
      && s'.loads == s.loads + [LoadTask(FromSrcChange, s.props.link)]
    ensures && s'.scale == s.scale && s'.isPdfLoaded == s.isPdfLoaded
            && s'.onCatchErrorReloadedCount == s.onCatchErrorReloadedCount
            && s'.switchPageBlocked == s.switchPageBlocked && s'.isPageRendering == s.isPageRendering
            && s'.active == s.active && s'.trace == s.trace
  {
    var prev := s.props;
    var s1 := s.(props := props);
    if prev.src != props.src then
      s1.(isShowError := false, pdfLoadingError := false, pdf := None, testFileContent := None,
          currentPageNumber := 1, pagesCount := 0,
          loads := s1.loads + [LoadTask(FromSrcChange, prev.link)])
    else s1
  }

  /** `afterUpload`: remembers the file, clears the load error, starts an uncaught load. */
  function Upload(s: State, content: string): (s': State)
    ensures s'.testFileContent == Some(content) && !s'.pdfLoadingError
    ensures s'.loads == s.loads + [LoadTask(FromUpload, Some(content))]
    ensures s'.(testFileContent := s.testFileContent, pdfLoadingError := s.pdfLoadingError, loads := s.loads) == s
  {
    s.(testFileContent := Some(content), pdfLoadingError := false,
       loads := s.loads + [LoadTask(FromUpload, Some(content))])
  }

  /** `.catch` is attached to the mount and source-change chains, not to uploads. */
  predicate Caught(origin: Origin) {
    origin != FromUpload
  }

  /**
    The pending load at `index` settles. On success the document, its page
    count and the loaded flag are stored (the page number is kept) and
    `pageRendering` runs; on failure only a caught load raises the load error.
    The state update and the `.then` render that follows it are one event.
   */
  function SettleLoad(s: State, index: nat, result: Option<Doc>): (s': State)
    ensures index >= |s.loads| ==> s' == s
    ensures index < |s.loads| ==> s'.loads == s.loads[..index] + s.loads[index + 1..]
    ensures index < |s.loads| && result.Some? ==>
      && s'.pdf == result && s'.isPdfLoaded && s'.pagesCount == result.value.numPages
      && s'.currentPageNumber == s.currentPageNumber && s'.pdfLoadingError == s.pdfLoadingError
    ensures index < |s.loads| && result.Some? && !s.isPageRendering ==>
      && s'.isPageRendering && s'.switchPageBlocked
      && s'.active == Some(Coroutine(AwaitingPage(result.value, s.currentPageNumber), Caught(s.loads[index].origin)))
      && s'.trace == s.trace + [GetPage(result.value, s.currentPageNumber)]
    ensures index < |s.loads| && result.Some? && s.isPageRendering ==>
      s' == s.(loads := s'.loads, pdf := result, isPdfLoaded := true, pagesCount := result.value.numPages)
    ensures s'.testFileContent == s.testFileContent
    ensures index < |s.loads| && result.None? ==>
      && s'.pdfLoadingError == (s.pdfLoadingError || s.loads[index].origin != FromUpload)
      && s'.(pdfLoadingError := s.pdfLoadingError, loads := s.loads) == s
    ensures && s'.onCatchErrorReloadedCount == s.onCatchErrorReloadedCount && s'.scale == s.scale
            && s'.isShowError == s.isShowError && s'.props == s.props
  {
    if index >= |s.loads| then s
    else
      var task := s.loads[index];
      var s1 := s.(loads := s.loads[..index] + s.loads[index + 1..]);
      match result
      case None => s1.(pdfLoadingError := s1.pdfLoadingError || Caught(task.origin))
      case Some(doc) =>
        BeginRender(s1.(pdf := Some(doc), isPdfLoaded := true, pagesCount := doc.numPages), Caught(task.origin))
  }

  /**
    `componentDidCatch`: below the limit a fault only bumps the counter;
    at the limit it shows the fatal error and the counter stays put.
   */
  function CatchFault(s: State): (s': State)
    ensures s.onCatchErrorReloadedCount < MaxReloadCountOnError ==>
      && s'.onCatchErrorReloadedCount == s.onCatchErrorReloadedCount + 1
      && s'.isShowError == s.isShowError
    ensures s.onCatchErrorReloadedCount >= MaxReloadCountOnError ==>
      && s'.onCatchErrorReloadedCount == s.onCatchErrorReloadedCount
      && s'.isShowError
    ensures s.onCatchErrorReloadedCount <= MaxReloadCountOnError ==>
      s'.onCatchErrorReloadedCount <= MaxReloadCountOnError
    ensures s'.(onCatchErrorReloadedCount := s.onCatchErrorReloadedCount, isShowError := s.isShowError) == s
  {
    if s.onCatchErrorReloadedCount < MaxReloadCountOnError then
      s.(onCatchErrorReloadedCount := s.onCatchErrorReloadedCount + 1)
    else
      s.(isShowError := true)
  }

}

=== FILE: navigation.dfy ===
/** `switchPageHandler`: clamped one-step navigation that always requests a render. */
module Navigation {
  import opened Optional
  import opened ViewerState
  import opened Render

  function Distance(a: int, b: int): nat {
    if a <= b then b - a else a - b
  }

  /**
    The page one step forward or back, clamped first from below to 1 and then
    from above to the page count: with pages, the valid page nearest the
    step, whatever the current page; with no pages, 0.
   */
  function NextPage(current: int, pagesCount: nat, next: bool): (p: int)
    ensures pagesCount >= 1 ==> 1 <= p <= pagesCount
    ensures pagesCount == 0 ==> p == 0
    ensures var step := if next then current + 1 else current - 1;
            1 <= step <= pagesCount ==> p == step
    ensures var step := if next then current + 1 else current - 1;
            pagesCount >= 1 && step < 1 ==> p == 1
    ensures var step := if next then current + 1 else current - 1;
            pagesCount >= 1 && step > pagesCount ==> p == pagesCount
    ensures var step := if next then current + 1 else current - 1;
            pagesCount >= 1 ==> forall q :: 1 <= q <= pagesCount ==> Distance(p, step) <= Distance(q, step)
    ensures 1 <= current <= pagesCount ==>
            (p == current <==> (if next then current == pagesCount else current == 1))
  {
    var requested := if next then current + 1 else current - 1;
    var low := if requested < 1 then 1 else requested;
    if low > pagesCount then pagesCount else low
  }

  /**
    A blocked switch changes nothing. Otherwise the page moves, the block is
    set when the page changed, and `pageRendering` is invoked regardless, so
    even a switch absorbed at a boundary starts a render (which sets the block).
   */
  function SwitchPage(s: State, next: bool): (s': State)
    ensures s.switchPageBlocked ==> s' == s
    ensures !s.switchPageBlocked ==>
      s'.currentPageNumber == NextPage(s.currentPageNumber, s.pagesCount, next)
    ensures !s.switchPageBlocked && !s.isPageRendering ==> s'.isPageRendering && s'.switchPageBlocked
    ensures !s.switchPageBlocked && !s.isPageRendering && s.pdf.Some? ==>
      && s'.active == Some(Coroutine(AwaitingPage(s.pdf.value, s'.currentPageNumber), false))
      && s'.trace == s.trace + [GetPage(s.pdf.value, s'.currentPageNumber)]
    ensures !s.switchPageBlocked && !s.isPageRendering && s.pdf.None? ==>
      s'.active == s.active && s'.trace == s.trace
    ensures !s.switchPageBlocked && s.isPageRendering ==>
      s'.switchPageBlocked == (s.currentPageNumber != s'.currentPageNumber)
    ensures s'.(currentPageNumber := s.currentPageNumber, switchPageBlocked := s.switchPageBlocked,
                isPageRendering := s.isPageRendering, active := s.active, trace := s.trace) == s
  {
    if s.switchPageBlocked then s
    else
      var p := NextPage(s.currentPageNumber, s.pagesCount, next);
      BeginRender(s.(currentPageNumber := p, switchPageBlocked := s.currentPageNumber != p), false)
  }

}

=== FILE: optional.dfy ===
/** A value that may be absent: JavaScript's `null`/`undefined` for the viewer's fields. */
module Optional {

  datatype Option<+T> = None | Some(value: T)

}

=== FILE: render.dfy ===
/**
  `pageRendering` as a coroutine: its synchronous prefix up to the first
  await, then one atomic segment per resumption. Other events may run at
  each of the five suspension points.
 */
module Render {
  import opened Optional
  import opened Engine
  import opened Scale
  import opened ViewerState

  /** Position of an action in the fixed stage order of a render. */
  function Rank(a: Action): nat {
    match a
    case GetPage(_, _) => 0
    case ResolveScale(_) => 1
    case GetViewport(_, _) => 2
    case SizeCanvas(_, _) => 3
    case Raster(_, _, _) => 4
    case GetTextContent(_) => 5
    case ClearLayer(_) => 6
    case TextLayer(_, _, _) => 7
    case CreateLinkService(_) => 8
    case AnnotationLayer(_, _, _) => 9
  }

  /**
    Everything one render of page `n` performs when no stage fails: the
    stages in their fixed order, every drawing step with the one viewport,
    every page step on the one fetched page, the raster on the canvas, and
    the fetched text and the annotations into the same container.
   */
  function RenderActions(doc: Doc, n: int, page: Page, scale: real, vp: Viewport, text: TextContent): (acts: seq<Action>)
    ensures |acts| == 10
    ensures forall i :: 0 <= i < |acts| ==> Rank(acts[i]) == i
    ensures forall i :: 0 <= i < |acts| && acts[i].UsesViewport() ==> acts[i].viewport == vp
    ensures forall i :: 0 <= i < |acts| && acts[i].IsOverlayWrite() ==> acts[i].target == Overlay
    ensures forall i :: 0 <= i < |acts| && (acts[i].SizeCanvas? || acts[i].Raster?) ==> acts[i].target == Canvas
    ensures forall i :: 0 <= i < |acts| && acts[i].UsesPage() ==> acts[i].page == page
    ensures forall i :: 0 <= i < |acts| && acts[i].TextLayer? ==> acts[i].text == text
    ensures acts[0] == GetPage(doc, n) && acts[1] == ResolveScale(scale) && acts[2] == GetViewport(page, scale)
  {
    [ GetPage(doc, n), ResolveScale(scale), GetViewport(page, scale),
      SizeCanvas(Canvas, vp), Raster(Canvas, page, vp),
      GetTextContent(page), ClearLayer(Overlay), TextLayer(Overlay, text, vp),
      CreateLinkService(Blank), AnnotationLayer(Overlay, page, vp) ]
  }

  /** What a coroutine suspended at `st` has performed so far. */
  function Emitted(st: Stage): seq<Action> {
    match st
    case AwaitingPage(doc, n) =>
      [GetPage(doc, n)]
    case AwaitingViewport(doc, n, page, sc) =>
      [GetPage(doc, n), ResolveScale(sc), GetViewport(page, sc)]
    case AwaitingRaster(doc, n, page, sc, vp) =>
      [GetPage(doc, n), ResolveScale(sc), GetViewport(page, sc),
       SizeCanvas(Canvas, vp), Raster(Canvas, page, vp)]
    case AwaitingText(doc, n, page, sc, vp) =>
      [GetPage(doc, n), ResolveScale(sc), GetViewport(page, sc),
       SizeCanvas(Canvas, vp), Raster(Canvas, page, vp), GetTextContent(page)]
    case AwaitingLinkService(doc, n, page, sc, vp, text) =>
      [GetPage(doc, n), ResolveScale(sc), GetViewport(page, sc),
       SizeCanvas(Canvas, vp), Raster(Canvas, page, vp), GetTextContent(page),
       ClearLayer(Overlay), TextLayer(Overlay, text, vp), CreateLinkService(Blank)]
  }

  predicate EndsWith(t: seq<Action>, e: seq<Action>) {
    |e| <= |t| && t[|t| - |e|..] == e
  }

  /**
    The synchronous prefix of `pageRendering`: a call while a render is in
    flight returns at once; otherwise both busy flags are set before anything
    else, and without a document the call returns leaving them set.
   */
  function BeginRender(s: State, caught: bool): (s': State)
    ensures s.isPageRendering ==> s' == s
    ensures !s.isPageRendering ==> s'.isPageRendering && s'.switchPageBlocked
    ensures !s.isPageRendering && s.pdf.None? ==> s'.active == s.active && s'.trace == s.trace
    ensures !s.isPageRendering && s.pdf.Some? ==>
      && s'.active == Some(Coroutine(AwaitingPage(s.pdf.value, s.currentPageNumber), caught))
      && s'.trace == s.trace + [GetPage(s.pdf.value, s.currentPageNumber)]
    ensures s'.(switchPageBlocked := s.switchPageBlocked, isPageRendering := s.isPageRendering,
                active := s.active, trace := s.trace) == s
  {
    if s.isPageRendering then s
    else
      var s1 := s.(switchPageBlocked := true, isPageRendering := true);
      match s1.pdf
      case None => s1
      case Some(doc) =>
        var n := s1.currentPageNumber;
        s1.(active := Some(Coroutine(AwaitingPage(doc, n), caught)), trace := s1.trace + [GetPage(doc, n)])
  }

  /**
    The in-flight render resumes from its current await with `reply`. A
    failure ends the coroutine with both busy flags still set; only the
    segment after the last await clears them, after the annotation layer.
   */
  function ResumeRender(s: State, reply: Reply): (s': State)
    ensures s.active.None? ==> s' == s
    ensures s.trace <= s'.trace
    ensures s'.active.Some? ==> s.active.Some?
    ensures s.active.Some? && reply.Failed? ==>
      && s'.active.None? && s'.trace == s.trace
      && s'.isPageRendering == s.isPageRendering && s'.switchPageBlocked == s.switchPageBlocked
      && s'.pdfLoadingError == (s.pdfLoadingError || s.active.value.caught)
    ensures s.isPageRendering && !s'.isPageRendering ==>
      && s.active.Some? && s.active.value.stage.AwaitingLinkService? && reply.Settled?
      && s'.trace == s.trace + [AnnotationLayer(Overlay, s.active.value.stage.page, s.active.value.stage.viewport)]
      && !s'.switchPageBlocked && s'.active.None?
    ensures s'.scale != s.scale ==>
      && s.active.Some? && s.active.value.stage.AwaitingPage? && reply.PageReady?
      && s'.scale == ScaleForCurrentWidth(s.scale, reply.probe, reply.container)
    ensures s.active.Some? && s.active.value.stage.AwaitingPage? && reply.PageReady? ==>
      var st := s.active.value.stage;
      var sc := ScaleForCurrentWidth(s.scale, reply.probe, reply.container);
      && s'.scale == sc
      && s'.active == Some(s.active.value.(stage := AwaitingViewport(st.doc, st.pageNumber, reply.page, sc)))
      && s'.trace == s.trace + [ResolveScale(sc), GetViewport(reply.page, sc)]
    ensures s.active.Some? && s.active.value.stage.AwaitingViewport? && reply.ViewportReady? ==>
      var st := s.active.value.stage;
      && s'.active == Some(s.active.value.(stage :=
           AwaitingRaster(st.doc, st.pageNumber, st.page, st.scale, reply.viewport)))
      && s'.trace == s.trace + [SizeCanvas(Canvas, reply.viewport), Raster(Canvas, st.page, reply.viewport)]
    ensures s.active.Some? && s.active.value.stage.AwaitingRaster? && reply.Settled? ==>
      var st := s.active.value.stage;
      && s'.active == Some(s.active.value.(stage :=
           AwaitingText(st.doc, st.pageNumber, st.page, st.scale, st.viewport)))
      && s'.trace == s.trace + [GetTextContent(st.page)]
    ensures s.active.Some? && s.active.value.stage.AwaitingText? && reply.TextReady? ==>
      var st := s.active.value.stage;
      && s'.active == Some(s.active.value.(stage :=
           AwaitingLinkService(st.doc, st.pageNumber, st.page, st.scale, st.viewport, reply.text)))
      && s'.trace == s.trace + [ClearLayer(Overlay), TextLayer(Overlay, reply.text, st.viewport), CreateLinkService(Blank)]
    ensures s.active.Some? && s.active.value.stage.AwaitingLinkService? && reply.Settled? ==>
      && !s'.isPageRendering && !s'.switchPageBlocked && s'.active.None?
      && s'.trace == s.trace + [AnnotationLayer(Overlay, s.active.value.stage.page, s.active.value.stage.viewport)]
    ensures s'.active.Some? ==>
      s'.switchPageBlocked == s.switchPageBlocked && s'.isPageRendering == s.isPageRendering
    ensures !reply.Failed? ==> s'.pdfLoadingError == s.pdfLoadingError
    ensures s'.(scale := s.scale, pdfLoadingError := s.pdfLoadingError, switchPageBlocked := s.switchPageBlocked,
                isPageRendering := s.isPageRendering, active := s.active, trace := s.trace) == s
  {
    match s.active
    case None => s
    case Some(co) =>
      if reply.Failed? then
        s.(active := None, pdfLoadingError := s.pdfLoadingError || co.caught)
      else
        match (co.stage, reply)
        case (AwaitingPage(doc, n), PageReady(page, probe, container)) =>
          var sc := ScaleForCurrentWidth(s.scale, probe, container);
          s.(scale := sc,
             active := Some(co.(stage := AwaitingViewport(doc, n, page, sc))),
             trace := s.trace + [ResolveScale(sc), GetViewport(page, sc)])
        case (AwaitingViewport(doc, n, page, sc), ViewportReady(vp)) =>
          s.(active := Some(co.(stage := AwaitingRaster(doc, n, page, sc, vp))),
             trace := s.trace + [SizeCanvas(Canvas, vp), Raster(Canvas, page, vp)])
        case (AwaitingRaster(doc, n, page, sc, vp), Settled) =>
          s.(active := Some(co.(stage := AwaitingText(doc, n, page, sc, vp))),
             trace := s.trace + [GetTextContent(page)])
        case (AwaitingText(doc, n, page, sc, vp), TextReady(text)) =>
          s.(active := Some(co.(stage := AwaitingLinkService(doc, n, page, sc, vp, text))),
             trace := s.trace + [ClearLayer(Overlay), TextLayer(Overlay, text, vp), CreateLinkService(Blank)])
        case (AwaitingLinkService(doc, n, page, sc, vp, text), Settled) =>
          s.(active := None, switchPageBlocked := false, isPageRendering := false,
             trace := s.trace + [AnnotationLayer(Overlay, page, vp)])
        case _ => s
  }

}

=== FILE: scale.dfy ===
/**
  The fit-scale rule of `getScaleForCurrentWidth`: a multiplicative
  refinement of the previous scale against the wrapping element's size.
 */
module Scale {
  import opened Engine

  /** Width-to-height ratio below which fullscreen fits the page by height. */
  const FullscreenAspectLimit: real := 1.5

  /** Which of the three branches of the rule applies. */
  datatype Fit = Keep | ByHeight | ByWidth

  /**
    `probe` is the page's viewport at the previous scale. The rule keeps the
    scale when the widths already agree, fits by height in fullscreen for a
    page narrower than 3:2, and fits by width otherwise.
   */
  function FitFor(probe: Viewport, c: Container): (f: Fit)
    ensures f.Keep? <==> c.clientWidth == probe.width
    ensures f.ByHeight? <==>
      c.clientWidth != probe.width && c.fullscreen && probe.width < FullscreenAspectLimit * probe.height
  {
    AspectBelow(probe.width, probe.height, FullscreenAspectLimit);
    if c.clientWidth == probe.width then Keep
    else if c.fullscreen && probe.width / probe.height < FullscreenAspectLimit then ByHeight
    else ByWidth
  }

  lemma AspectBelow(w: real, h: real, k: real)
    requires h > 0.0
    ensures w / h < k <==> w < k * h
  {
  }

  /**
    The new scale. In each fitting branch the page, scaled from its viewport
    at `scale` to the result, would exactly fill the container along the
    fitted dimension.
   */
  function ScaleForCurrentWidth(scale: real, probe: Viewport, c: Container): (r: real)
    ensures FitFor(probe, c).Keep? ==> r == scale
    ensures FitFor(probe, c).ByHeight? ==> r * probe.height == c.clientHeight * scale
    ensures FitFor(probe, c).ByWidth? ==> r * probe.width == c.clientWidth * scale
  {
    match FitFor(probe, c)
    case Keep => scale
    case ByHeight =>
      assert c.clientHeight / probe.height * probe.height == c.clientHeight;
      c.clientHeight / probe.height * scale
    case ByWidth =>
      assert c.clientWidth / probe.width * probe.width == c.clientWidth;
      c.clientWidth / probe.width * scale
  }

  /**
    `next` is what a page whose geometry is linear in the scale reports at
    scale `to`, given that it reported `probe` at scale `from`. The engine is
    not assumed to behave like this; the lemmas below say what follows when it does.
   */
  predicate Proportional(probe: Viewport, from: real, next: Viewport, to: real) {
    next.width * from == probe.width * to && next.height * from == probe.height * to
  }

  /** After a width fit on a linear page, the next evaluation is the fixed point. */
  lemma WidthFitReachesFixedPoint(scale: real, probe: Viewport, c: Container, next: Viewport)
    requires scale > 0.0
    requires FitFor(probe, c).ByWidth?
    requires Proportional(probe, scale, next, ScaleForCurrentWidth(scale, probe, c))
    ensures FitFor(next, c).Keep?
    ensures ScaleForCurrentWidth(ScaleForCurrentWidth(scale, probe, c), next, c)
         == ScaleForCurrentWidth(scale, probe, c)
  {
  }

  /**
    After a height fit on a linear page, the next evaluation again fits by
    height (or keeps the scale) and returns the same scale: no drift.
   */
  lemma HeightFitIsStable(scale: real, probe: Viewport, c: Container, next: Viewport)
    requires scale > 0.0
    requires FitFor(probe, c).ByHeight?
    requires Proportional(probe, scale, next, ScaleForCurrentWidth(scale, probe, c))
    ensures ScaleForCurrentWidth(ScaleForCurrentWidth(scale, probe, c), next, c)
         == ScaleForCurrentWidth(scale, probe, c)
  {
    var r := ScaleForCurrentWidth(scale, probe, c);
    assert r * probe.height == c.clientHeight * scale;
    assert probe.height * r == r * probe.height;
    assert next.height * scale == c.clientHeight * scale;
    CancelFactor(next.height, c.clientHeight, scale);
    if c.clientWidth != next.width {
      PositiveFactor(probe.height, r, next.height * scale);
      AspectPreserved(probe, next, scale, r);
      var r' := ScaleForCurrentWidth(r, next, c);
      assert FitFor(next, c).ByHeight?;
      assert r' * next.height == r * next.height;
      CancelFactor(r', r, next.height);
    }
  }

  /** A linear page keeps its width-to-height ratio on the same side of the limit. */
  lemma AspectPreserved(probe: Viewport, next: Viewport, from: real, to: real)
    requires from > 0.0 && to > 0.0
    requires Proportional(probe, from, next, to)
    requires probe.width < FullscreenAspectLimit * probe.height
    ensures next.width < FullscreenAspectLimit * next.height
  {
  }

  lemma CancelFactor(a: real, b: real, k: real)
    requires k > 0.0
    requires a * k == b * k
    ensures a == b
  {
  }

  lemma PositiveFactor(a: real, b: real, p: real)
    requires a > 0.0 && p > 0.0 && a * b == p
    ensures b > 0.0
  {
  }

}

=== FILE: state.dfy ===
/**
  The viewer's state: the React component's `state` object, its
  `isPageRendering` instance field, its props, and the asynchronous work it
  has in flight (document loads and at most one page-rendering coroutine past
  its guard). A `trace` records, in order, the engine calls and surface
  writes a page render makes after its guard; the scale probe is not
  recorded, and `ResolveScale` records the scale it chose.
 */
module ViewerState {
  import opened Optional
  import opened Engine

  /** How many runtime faults are absorbed before the fatal message is shown. */
  const MaxReloadCountOnError: nat := 2

  /** The component's props. `link` is read by `componentDidUpdate` but is not a declared prop. */
  datatype Props = Props(src: Option<string>, link: Option<string>, sandbox: bool)

  /** Which caller started a document load; it decides who observes a rejection. */
  datatype Origin = FromMount | FromSrcChange | FromUpload

  /** A pending `fetchPdf` call and the source it was given. */
  datatype LoadTask = LoadTask(origin: Origin, source: Option<string>)

  /** The two drawing surfaces: the raster canvas and the shared text-and-annotation layer. */
  datatype Surface = Canvas | Overlay

  /** Where links of the annotation layer open; the viewer always asks for a new tab. */
  datatype LinkTarget = Blank

  /** One engine call or one surface write performed by a page render. */
  datatype Action =
    | GetPage(doc: Doc, pageNumber: int)
    | ResolveScale(scale: real)
    | GetViewport(page: Page, scale: real)
    | SizeCanvas(target: Surface, viewport: Viewport)
    | Raster(target: Surface, page: Page, viewport: Viewport)
    | GetTextContent(page: Page)
    | ClearLayer(target: Surface)
    | TextLayer(target: Surface, text: TextContent, viewport: Viewport)
    | CreateLinkService(externalTarget: LinkTarget)
    | AnnotationLayer(target: Surface, page: Page, viewport: Viewport)
  {
    /** The action draws with a viewport. */
    predicate UsesViewport() {
      SizeCanvas? || Raster? || TextLayer? || AnnotationLayer?
    }

    /** The action works on a fetched page. */
    predicate UsesPage() {
      GetViewport? || Raster? || GetTextContent? || AnnotationLayer?
    }

    /** The action writes into the text-and-annotation container. */
    predicate IsOverlayWrite() {
      ClearLayer? || TextLayer? || AnnotationLayer?
    }
  }

  /**
    Where a running `pageRendering` is suspended, with the local variables it
    holds at that point: the document and page number read on entry, then
    the page, the scale, the viewport and the text content as they arrive.
   */
  datatype Stage =
    | AwaitingPage(doc: Doc, pageNumber: int)
    | AwaitingViewport(doc: Doc, pageNumber: int, page: Page, scale: real)
    | AwaitingRaster(doc: Doc, pageNumber: int, page: Page, scale: real, viewport: Viewport)
    | AwaitingText(doc: Doc, pageNumber: int, page: Page, scale: real, viewport: Viewport)
    | AwaitingLinkService(doc: Doc, pageNumber: int, page: Page, scale: real, viewport: Viewport, text: TextContent)

  /**
    The coroutine past the guard. `caught` is true when its promise is chained
    to a `.catch` that sets `pdfLoadingError` (the mount and source-change loads).
   */
  datatype Coroutine = Coroutine(stage: Stage, caught: bool)

  datatype State = State(
    props: Props,
    pdf: Option<Doc>,
    testFileContent: Option<string>,
    pagesCount: nat,
    currentPageNumber: int,
    onCatchErrorReloadedCount: nat,
    switchPageBlocked: bool,
    scale: real,
    isPdfLoaded: bool,
    isShowError: bool,
    pdfLoadingError: bool,
    isPageRendering: bool,
    active: Option<Coroutine>,
    loads: seq<LoadTask>,
    trace: seq<Action>)

}

=== FILE: view.dfy ===
/** The branch structure of `render`: which screen the component shows. */
module View {
  import opened Optional
  import opened ViewerState

  /** Answers of the fullscreen and device-class libraries. */
  datatype Platform = Platform(fullscreenEnabled: bool, mobile: bool)

  /** The control bar under the document. */
  datatype Controls = Controls(
    navigation: bool,
    currentPage: int,
    pagesCount: nat,
    download: Option<string>,
    fullscreenButton: bool)

  /** The main screen's body: the document, the loading note, or nothing. */
  datatype Body = Document(controls: Controls) | LoadingNote | Nothing

  datatype Screen =
    | FatalErrorMessage
    | LoadFailedMessage
    | Main(uploadPanel: bool, body: Body)

  /** JavaScript truthiness of an optional string: absent and empty are false. */
  predicate Truthy(o: Option<string>) {
    o.Some? && o.value != ""
  }

  /**
    The fatal message wins over the load-failure message, which is never
    shown in sandbox mode; the navigation buttons exist only for more than
    one page; the upload panel only in sandbox mode before a file is chosen.
   */
  function RenderScreen(s: State, platform: Platform): (v: Screen)
    ensures v.FatalErrorMessage? <==> s.isShowError
    ensures v.Main? <==> !s.isShowError && !(s.pdfLoadingError && !s.props.sandbox)
    ensures v.LoadFailedMessage? <==> !s.isShowError && s.pdfLoadingError && !s.props.sandbox
    ensures v.Main? ==> (v.body.Document? <==> s.isPdfLoaded)
    ensures v.Main? && v.body.Document? ==>
      && (v.body.controls.navigation <==> s.pagesCount > 1)
      && v.body.controls.currentPage == s.currentPageNumber && v.body.controls.pagesCount == s.pagesCount
      && v.body.controls.download == (if s.props.sandbox then s.testFileContent else s.props.src)
      && (v.body.controls.fullscreenButton <==> platform.fullscreenEnabled && !platform.mobile)
    ensures v.Main? ==> (v.body.LoadingNote? <==> !s.isPdfLoaded && !s.props.sandbox)
    ensures v.Main? ==> (v.uploadPanel <==> s.props.sandbox && !Truthy(s.testFileContent))
  {
    var file := if s.props.sandbox then s.testFileContent else s.props.src;
    if s.isShowError then FatalErrorMessage
    else if s.pdfLoadingError && !s.props.sandbox then LoadFailedMessage
    else
      var body :=
        if s.isPdfLoaded then
          Document(Controls(s.pagesCount > 1, s.currentPageNumber, s.pagesCount, file,
                            platform.fullscreenEnabled && !platform.mobile))
        else if !s.props.sandbox then LoadingNote
        else Nothing;
      Main(s.props.sandbox && !Truthy(s.testFileContent), body)
  }

}

=== FILE: viewer.dfy ===
/**
  The whole viewer as an event-driven state machine. Every event is one
  atomic run of JavaScript between suspension points: a lifecycle hook, a
  click, a (throttled) resize, a load settling, or the in-flight render
  resuming from one of its awaits.
 */
module Viewer {
  import opened Optional
  import opened Engine
  import opened ViewerState
  import opened Render
  import opened View
  import Navigation
  import Lifecycle

  datatype Event =
    | Mount
    | Update(props: Props)
    | Upload(content: string)
    | Fault
    | SwitchPage(next: bool)
    | Resize
    | LoadSettled(index: nat, result: Option<Doc>)
    | RenderSettled(reply: Reply)

  /**
    Dispatches one event. A resize is one throttled `pageRendering` call with
    no rejection handler, and a click on a navigation button is one
    `switchPageHandler` call. Only the fault counter's own hook moves it. A
    render that starts reports its failure as a load error exactly when it
    follows a mount or source-change load.
   */
  function Step(s: State, e: Event): (r: State)
    ensures e.Resize? && s.isPageRendering ==> r == s
    ensures e.Resize? && !s.isPageRendering ==>
      r.isPageRendering && r.switchPageBlocked && r.currentPageNumber == s.currentPageNumber
    ensures e.Resize? && !s.isPageRendering && s.pdf.Some? ==>
      && r.active == Some(Coroutine(AwaitingPage(s.pdf.value, s.currentPageNumber), false))
      && r.trace == s.trace + [GetPage(s.pdf.value, s.currentPageNumber)]
    ensures e.SwitchPage? ==>
      r.currentPageNumber ==
        (if s.switchPageBlocked then s.currentPageNumber
         else Navigation.NextPage(s.currentPageNumber, s.pagesCount, e.next))
    ensures e.SwitchPage? && s.switchPageBlocked ==> r == s
    ensures e.SwitchPage? && !s.switchPageBlocked && !s.isPageRendering ==>
      r.switchPageBlocked && r.isPageRendering
    ensures e.SwitchPage? && !s.switchPageBlocked && !s.isPageRendering && s.pdf.Some? ==>
      && r.active == Some(Coroutine(AwaitingPage(s.pdf.value, r.currentPageNumber), false))
      && r.trace == s.trace + [GetPage(s.pdf.value, r.currentPageNumber)]
    ensures !e.Fault? ==> r.onCatchErrorReloadedCount == s.onCatchErrorReloadedCount
    ensures s.active.None? && r.active.Some? ==>
      (r.active.value.caught <==>
         e.LoadSettled? && e.index < |s.loads| && s.loads[e.index].origin != FromUpload)
  {
    match e
    case Mount => Lifecycle.Mount(s)
    case Update(props) => Lifecycle.Update(s, props)
    case Upload(content) => Lifecycle.Upload(s, content)
    case Fault => Lifecycle.CatchFault(s)
    case SwitchPage(next) => Navigation.SwitchPage(s, next)
    case Resize => BeginRender(s, false)
    case LoadSettled(index, result) => Lifecycle.SettleLoad(s, index, result)
    case RenderSettled(reply) => ResumeRender(s, reply)
  }

  function Run(s: State, evs: seq<Event>): State
    decreases |evs|
  {
    if evs == [] then s else Run(Step(s, evs[0]), evs[1..])
  }

  /**
    What every reachable state satisfies: the navigation block and the render
    flag are the same bit; the fault counter is within its bound; and an
    in-flight render has just performed its emitted prefix, with the scale
    it resolved still stored.
   */
  predicate Inv(s: State) {
    && s.switchPageBlocked == s.isPageRendering
    && s.onCatchErrorReloadedCount <= MaxReloadCountOnError
    && (s.active.Some? ==>
          && s.isPageRendering
          && EndsWith(s.trace, Emitted(s.active.value.stage))
          && (!s.active.value.stage.AwaitingPage? ==> s.scale == s.active.value.stage.scale))
  }

  /** The render flag is set but no render will ever clear it. */
  predicate Stuck(s: State) {
    s.isPageRendering && s.active.None?
  }

  /** The component's initial state. */
  function Initial(props: Props): (s: State)
    ensures Inv(s)
    ensures !s.isPageRendering && s.active.None? && s.loads == [] && s.trace == []
    ensures s.currentPageNumber == 1 && s.pagesCount == 0 && s.scale == 1.0 && s.onCatchErrorReloadedCount == 0
    ensures s.pdf.None? && s.testFileContent.None? && !s.isPdfLoaded && !s.isShowError && !s.pdfLoadingError
    ensures s.props == props
  {
    State(props, None, None, 0, 1, 0, false, 1.0, false, false, false, false, None, [], [])
  }

  lemma EndsWithAppend(t: seq<Action>, e: seq<Action>, x: seq<Action>)
    requires EndsWith(t, e)
    ensures EndsWith(t + x, e + x)
  {
  }

  lemma BeginRenderRestoresInv(s: State, caught: bool)
    requires !s.isPageRendering && s.active.None?
    requires s.onCatchErrorReloadedCount <= MaxReloadCountOnError
    ensures Inv(BeginRender(s, caught))
  {
  }

  lemma ResumePreservesInv(s: State, reply: Reply)
    requires Inv(s)
    ensures Inv(ResumeRender(s, reply))
  {
    if s.active.Some? && !reply.Failed? {
      var s' := ResumeRender(s, reply);
      if s'.active.Some? {
        var x := ResumeExtendsEmitted(s, reply);
        EndsWithAppend(s.trace, Emitted(s.active.value.stage), x);
      }
    }
  }

  /** A resumption that keeps the render going appends exactly the next stage's actions. */
  lemma ResumeExtendsEmitted(s: State, reply: Reply) returns (x: seq<Action>)
    requires s.active.Some? && ResumeRender(s, reply).active.Some?
    ensures ResumeRender(s, reply).trace == s.trace + x
    ensures Emitted(ResumeRender(s, reply).active.value.stage) == Emitted(s.active.value.stage) + x
  {
    var st := s.active.value.stage;
    if st.AwaitingPage? && reply.PageReady? {
      x := ResumeFromPage(s, reply);
    } else if st.AwaitingViewport? && reply.ViewportReady? {
      x := ResumeFromViewport(s, reply);
    } else if st.AwaitingRaster? && reply.Settled? {
      x := [GetTextContent(st.page)];
    } else if st.AwaitingText? && reply.TextReady? {
      x := ResumeFromText(s, reply);
    } else {
      x := [];
    }
  }

  lemma ResumeFromPage(s: State, reply: Reply) returns (x: seq<Action>)
    requires s.active.Some? && s.active.value.stage.AwaitingPage? && reply.PageReady?
    ensures ResumeRender(s, reply).active.Some?
    ensures ResumeRender(s, reply).trace == s.trace + x
    ensures Emitted(ResumeRender(s, reply).active.value.stage) == Emitted(s.active.value.stage) + x
  {
    var sc := Scale.ScaleForCurrentWidth(s.scale, reply.probe, reply.container);
    x := [ResolveScale(sc), GetViewport(reply.page, sc)];
  }

  lemma ResumeFromViewport(s: State, reply: Reply) returns (x: seq<Action>)
    requires s.active.Some? && s.active.value.stage.AwaitingViewport? && reply.ViewportReady?
    ensures ResumeRender(s, reply).active.Some?
    ensures ResumeRender(s, reply).trace == s.trace + x
    ensures Emitted(ResumeRender(s, reply).active.value.stage) == Emitted(s.active.value.stage) + x
  {
    x := [SizeCanvas(Canvas, reply.viewport), Raster(Canvas, s.active.value.stage.page, reply.viewport)];
  }

  lemma ResumeFromText(s: State, reply: Reply) returns (x: seq<Action>)
    requires s.active.Some? && s.active.value.stage.AwaitingText? && reply.TextReady?
    ensures ResumeRender(s, reply).active.Some?
    ensures ResumeRender(s, reply).trace == s.trace + x
    ensures Emitted(ResumeRender(s, reply).active.value.stage) == Emitted(s.active.value.stage) + x
  {
    var vp := s.active.value.stage.viewport;
    x := [ClearLayer(Overlay), TextLayer(Overlay, reply.text, vp), CreateLinkService(Blank)];
  }

  /** Every event keeps the invariant. */
  lemma StepPreservesInv(s: State, e: Event)
    requires Inv(s)
    ensures Inv(Step(s, e))
  {
    match e
    case SwitchPage(next) =>
      if !s.switchPageBlocked {
        var p := Navigation.NextPage(s.currentPageNumber, s.pagesCount, next);
        BeginRenderRestoresInv(s.(currentPageNumber := p, switchPageBlocked := s.currentPageNumber != p), false);
      }
    case Resize =>
      if !s.isPageRendering {
        BeginRenderRestoresInv(s, false);
      }
    case LoadSettled(index, result) =>
      if index < |s.loads| && result.Some? && !s.isPageRendering {
        var s1 := s.(loads := s.loads[..index] + s.loads[index + 1..]);
        BeginRenderRestoresInv(s1.(pdf := result, isPdfLoaded := true, pagesCount := result.value.numPages),
                               Lifecycle.Caught(s.loads[index].origin));
      }
    case RenderSettled(reply) =>
      ResumePreservesInv(s, reply);
    case _ =>
  }

  /** Every reachable state satisfies the invariant. */
  lemma {:induction false} RunPreservesInv(s: State, evs: seq<Event>)
    requires Inv(s)
    ensures Inv(Run(s, evs))
    decreases |evs|
  {
    if evs != [] {
      StepPreservesInv(s, evs[0]);
      RunPreservesInv(Step(s, evs[0]), evs[1..]);
    }
  }

  /**
    While a render is in flight, a page switch and a resize are dropped:
    the state, including the page number, is exactly as before.
   */
  lemma MidRenderRequestsAreDropped(s: State, next: bool)
    requires Inv(s) && s.isPageRendering
    ensures Step(s, SwitchPage(next)) == s
    ensures Step(s, Resize) == s
  {
  }

  /**
    A render's busy flags are cleared only by the segment after its last
    await, and at that moment the trace ends with the complete ordered render,
    all drawing with one viewport at the stored scale.
   */
  lemma RenderCompletesInOrder(s: State, e: Event)
    requires Inv(s) && s.isPageRendering && !Step(s, e).isPageRendering
    ensures e.RenderSettled? && e.reply.Settled?
    ensures s.active.Some? && s.active.value.stage.AwaitingLinkService?
    ensures var st := s.active.value.stage;
      && EndsWith(Step(s, e).trace, RenderActions(st.doc, st.pageNumber, st.page, st.scale, st.viewport, st.text))
      && Step(s, e).scale == st.scale
      && !Step(s, e).switchPageBlocked && Step(s, e).active.None?
  {
  }

  /**
    In any event sequence from a reachable state, whenever a render clears
    the busy flags the trace ends with one complete render in stage order.
   */
  lemma RenderCompletesInAnyRun(s: State, evs: seq<Event>, k: nat)
    requires Inv(s) && k < |evs|
    requires Run(s, evs[..k]).isPageRendering && !Step(Run(s, evs[..k]), evs[k]).isPageRendering
    ensures var a := Run(s, evs[..k]);
      && a.active.Some? && a.active.value.stage.AwaitingLinkService?
      && var st := a.active.value.stage;
         EndsWith(Step(a, evs[k]).trace, RenderActions(st.doc, st.pageNumber, st.page, st.scale, st.viewport, st.text))
  {
    RunPreservesInv(s, evs[..k]);
    RenderCompletesInOrder(Run(s, evs[..k]), evs[k]);
  }

  /**
    A resize on an idle viewer with a document, followed by every engine
    call succeeding, draws the current page completely and frees navigation;
    the scale resolved by the fit rule is the one stored and used.
   */
  lemma UninterruptedRender(s: State, doc: Doc, page: Page, probe: Viewport, c: Container,
                            vp: Viewport, text: TextContent)
    requires Inv(s) && !s.isPageRendering && s.pdf == Some(doc)
    ensures var sc := Scale.ScaleForCurrentWidth(s.scale, probe, c);
      var t := Run(s, [Resize, RenderSettled(PageReady(page, probe, c)), RenderSettled(ViewportReady(vp)),
                       RenderSettled(Settled), RenderSettled(TextReady(text)), RenderSettled(Settled)]);
      && !t.isPageRendering && !t.switchPageBlocked && t.active.None?
      && t.scale == sc
      && t.trace == s.trace + RenderActions(doc, s.currentPageNumber, page, sc, vp, text)
  {
    var sc := Scale.ScaleForCurrentWidth(s.scale, probe, c);
    var n := s.currentPageNumber;
    var s1 := BeginRender(s, false);
    assert Step(s, Resize) == s1;
    ResumeToCompletion(s1, doc, n, page, probe, c, vp, text);
    RunSix(s, Resize, RenderSettled(PageReady(page, probe, c)), RenderSettled(ViewportReady(vp)),
           RenderSettled(Settled), RenderSettled(TextReady(text)), RenderSettled(Settled));
  }

  /** The five resumptions of a render that has just requested page `n`. */
  lemma ResumeToCompletion(s1: State, doc: Doc, n: int, page: Page, probe: Viewport, c: Container,
                           vp: Viewport, text: TextContent)
    requires s1.active == Some(Coroutine(AwaitingPage(doc, n), false))
    ensures var sc := Scale.ScaleForCurrentWidth(s1.scale, probe, c);
      var t := ResumeRender(ResumeRender(ResumeRender(ResumeRender(ResumeRender(s1,
                 PageReady(page, probe, c)), ViewportReady(vp)), Settled), TextReady(text)), Settled);
      && !t.isPageRendering && !t.switchPageBlocked && t.active.None? && t.scale == sc
      && t.trace == s1.trace + RenderActions(doc, n, page, sc, vp, text)[1..]
  {
    var sc := Scale.ScaleForCurrentWidth(s1.scale, probe, c);
    var s2 := ResumeRender(s1, PageReady(page, probe, c));
    assert s2.active == Some(Coroutine(AwaitingViewport(doc, n, page, sc), false)) && s2.scale == sc;
    var s3 := ResumeRender(s2, ViewportReady(vp));
    assert s3.active == Some(Coroutine(AwaitingRaster(doc, n, page, sc, vp), false));
    var s4 := ResumeRender(s3, Settled);
    assert s4.active == Some(Coroutine(AwaitingText(doc, n, page, sc, vp), false));
    var s5 := ResumeRender(s4, TextReady(text));
    assert s5.active == Some(Coroutine(AwaitingLinkService(doc, n, page, sc, vp, text), false));
    var s6 := ResumeRender(s5, Settled);
    assert s6.trace == s1.trace + RenderActions(doc, n, page, sc, vp, text)[1..];
  }

  lemma RunSix(s: State, e0: Event, e1: Event, e2: Event, e3: Event, e4: Event, e5: Event)
    ensures Run(s, [e0, e1, e2, e3, e4, e5])
         == Step(Step(Step(Step(Step(Step(s, e0), e1), e2), e3), e4), e5)
  {
    var evs := [e0, e1, e2, e3, e4, e5];
    var s1 := Step(s, e0);
    var s2 := Step(s1, e1);
    var s3 := Step(s2, e2);
    var s4 := Step(s3, e3);
    var s5 := Step(s4, e4);
    assert evs[1..][1..][1..][1..][1..] == [e5];
    assert Run(s5, [e5]) == Step(s5, e5);
    assert Run(s4, [e4, e5]) == Run(s5, [e5]);
    assert Run(s3, [e3, e4, e5]) == Run(s4, [e4, e5]);
    assert Run(s2, [e2, e3, e4, e5]) == Run(s3, [e3, e4, e5]);
    assert Run(s1, [e1, e2, e3, e4, e5]) == Run(s2, [e2, e3, e4, e5]);
  }

  /**
    While a render is suspended, no other events (loads, clicks, resizes,
    lifecycle hooks, faults) touch it: the coroutine and the trace stay as
    they are until the render itself resumes.
   */
  lemma {:induction false} OtherEventsLeaveRenderAlone(s: State, evs: seq<Event>)
    requires Inv(s) && s.active.Some?
    requires forall i :: 0 <= i < |evs| ==> !evs[i].RenderSettled?
    ensures Run(s, evs).active == s.active && Run(s, evs).trace == s.trace
    ensures Run(s, evs).scale == s.scale && Run(s, evs).isPageRendering
    decreases |evs|
  {
    if evs != [] {
      StepPreservesInv(s, evs[0]);
      OtherEventsLeaveRenderAlone(Step(s, evs[0]), evs[1..]);
    }
  }

  /**
    Once the render flag is set with no render in flight, it stays so for
    every later event: navigation stays blocked and nothing is drawn again.
   */
  lemma {:induction false} StuckIsPermanent(s: State, evs: seq<Event>)
    requires Inv(s) && Stuck(s)
    ensures Stuck(Run(s, evs)) && Run(s, evs).switchPageBlocked
    ensures Run(s, evs).trace == s.trace
    decreases |evs|
  {
    if evs != [] {
      StepPreservesInv(s, evs[0]);
      StuckIsPermanent(Step(s, evs[0]), evs[1..]);
    }
  }

  /**
    Navigation and resize while stuck leave the state exactly as it is.
   */
  lemma {:induction false} StuckIgnoresNavigation(s: State, evs: seq<Event>)
    requires Inv(s) && Stuck(s)
    requires forall i :: 0 <= i < |evs| ==> evs[i].SwitchPage? || evs[i].Resize?
    ensures Run(s, evs) == s
    decreases |evs|
  {
    if evs != [] {
      assert Step(s, evs[0]) == s;
      StuckIgnoresNavigation(s, evs[1..]);
    }
  }

  /** A render started without a document gets stuck. */
  lemma RenderWithoutDocumentSticks(s: State, next: bool)
    requires Inv(s) && !s.isPageRendering && s.pdf.None?
    ensures Stuck(Step(s, Resize)) && Stuck(Step(s, SwitchPage(next)))
  {
  }

  /**
    A resize that fires before the first document arrives sticks the viewer
    for good: the document is loaded and counted, but never drawn.
   */
  lemma ResizeBeforeLoadNeverDraws(props: Props, doc: Doc, later: seq<Event>)
    ensures var s := Run(Initial(props), [Mount, Resize, LoadSettled(0, Some(doc))]);
      && s.isPdfLoaded && s.pagesCount == doc.numPages && Stuck(s)
      && Run(s, later).trace == []
  {
    var s0 := Initial(props);
    var s1 := Step(s0, Mount);
    var s2 := Step(s1, Resize);
    var s3 := Step(s2, LoadSettled(0, Some(doc)));
    assert Run(s2, [LoadSettled(0, Some(doc))]) == s3;
    assert Run(s1, [Resize, LoadSettled(0, Some(doc))]) == s3;
    assert Run(s0, [Mount, Resize, LoadSettled(0, Some(doc))]) == s3;
    StepPreservesInv(s0, Mount);
    StepPreservesInv(s1, Resize);
    StepPreservesInv(s2, LoadSettled(0, Some(doc)));
    StuckIsPermanent(s3, later);
  }

  /**
    Mounting and loading an n-page document shows the document as page 1 of
    n, with navigation buttons only for more than one page, and starts
    rendering page 1 with failures reported as load errors.
   */
  lemma FirstLoadRendersPageOne(props: Props, doc: Doc, platform: Platform)
    ensures var s := Run(Initial(props), [Mount, LoadSettled(0, Some(doc))]);
      && s.pagesCount == doc.numPages && s.currentPageNumber == 1 && s.isPdfLoaded
      && s.switchPageBlocked && s.active == Some(Coroutine(AwaitingPage(doc, 1), true))
      && s.loads == []
      && var v := RenderScreen(s, platform);
         && v.Main? && v.body.Document?
         && v.body.controls.currentPage == 1 && v.body.controls.pagesCount == doc.numPages
         && (v.body.controls.navigation <==> doc.numPages > 1)
  {
    var s0 := Initial(props);
    var s1 := Step(s0, Mount);
    assert Run(s1, [LoadSettled(0, Some(doc))]) == Step(s1, LoadSettled(0, Some(doc)));
    assert Run(s0, [Mount, LoadSettled(0, Some(doc))]) == Step(s1, LoadSettled(0, Some(doc)));
  }

  /**
    A failed first load shows the load-failure message outside sandbox mode;
    a failed upload raises nothing.
   */
  lemma FailedLoadMessages(props: Props, content: string, platform: Platform)
    ensures !props.sandbox ==>
      RenderScreen(Run(Initial(props), [Mount, LoadSettled(0, None)]), platform).LoadFailedMessage?
    ensures !Run(Initial(props), [Upload(content), LoadSettled(0, None)]).pdfLoadingError
  {
    var s0 := Initial(props);
    assert [Mount, LoadSettled(0, None)][1..] == [LoadSettled(0, None)];
    assert Run(s0, [Mount, LoadSettled(0, None)]) == Step(Step(s0, Mount), LoadSettled(0, None));
    assert [Upload(content), LoadSettled(0, None)][1..] == [LoadSettled(0, None)];
    assert Run(s0, [Upload(content), LoadSettled(0, None)]) == Step(Step(s0, Upload(content)), LoadSettled(0, None));
  }

  /**
    At a boundary the page stays put, yet the switch still blocks navigation
    and starts a render of the same page.
   */
  lemma BoundarySwitchStillRenders(s: State, doc: Doc)
    requires Inv(s) && !s.isPageRendering && s.pdf == Some(doc) && s.pagesCount == 5
    ensures s.currentPageNumber == 1 ==>
      var t := Step(s, SwitchPage(false));
      t.currentPageNumber == 1 && t.switchPageBlocked && t.active == Some(Coroutine(AwaitingPage(doc, 1), false))
    ensures s.currentPageNumber == 5 ==>
      var t := Step(s, SwitchPage(true));
      t.currentPageNumber == 5 && t.switchPageBlocked && t.active == Some(Coroutine(AwaitingPage(doc, 5), false))
  {
  }

  /**
    Starting from no absorbed faults, two faults are retried and a third
    shows the fatal message, whatever the rest of the state.
   */
  lemma ThirdFaultIsFatal(s: State, platform: Platform)
    requires s.onCatchErrorReloadedCount == 0 && !s.isShowError
    ensures var t := Run(s, [Fault, Fault]);
      t.onCatchErrorReloadedCount == 2 && !t.isShowError
    ensures var u := Run(s, [Fault, Fault, Fault]);
      u.onCatchErrorReloadedCount == 2 && u.isShowError && RenderScreen(u, platform).FatalErrorMessage?
  {
  }

  /** Only a fault moves the fault counter; no load or source change resets it. */
  lemma {:induction false} CounterOnlyMovesOnFault(s: State, evs: seq<Event>)
    requires forall i :: 0 <= i < |evs| ==> !evs[i].Fault?
    ensures Run(s, evs).onCatchErrorReloadedCount == s.onCatchErrorReloadedCount
    decreases |evs|
  {
    if evs != [] {
      CounterOnlyMovesOnFault(Step(s, evs[0]), evs[1..]);
    }
  }

  /**
    A new source clears the fatal message, but the exhausted counter is kept,
    so the very next fault shows it again.
   */
  lemma ExhaustedCounterSurvivesSourceChange(s: State, props: Props, platform: Platform)
    requires s.onCatchErrorReloadedCount == MaxReloadCountOnError && props.src != s.props.src
    ensures !RenderScreen(Step(s, Update(props)), platform).FatalErrorMessage?
    ensures RenderScreen(Run(s, [Update(props), Fault]), platform).FatalErrorMessage?
  {
    var s1 := Step(s, Update(props));
    assert Run(s1, [Fault]) == Step(s1, Fault);
    assert Run(s, [Update(props), Fault]) == Step(s1, Fault);
  }

}
